=== FILE: README.md ===
# ofxThreadedImage lifecycle model

A Dafny model of the lifecycle flags of `ofxThreadedImage`, an openFrameworks
image that loads from disk or over HTTP on a background thread. The background
thread decodes (and optionally downsizes) the image. The main thread uploads the
texture on the next frame and then fires `imageReadyEvent` to the owner.

The model is a transition system over one immutable record (`ThreadedImage.Entity`).
The record holds the flags `busy`, `imageLoaded`, `pendingTexture`,
`pendingNotification`, `problemLoading` and `readyToDraw`. It also holds whether
`_update` is registered on the frame event, the task kind `whatToDo`, the fade
`alpha` and the resize configuration. The process-wide `numAlive` and
`numLoading` counters live beside it (`ProcessCounters.Counters`). They are
32-bit ints that wrap around.

The transitions are pure functions:

- the five entry points;
- one run of `threadedFunction`, taken as a single atomic step;
- the per-frame `_update`, which calls `updateTextureIfNeeded`;
- `constrainImageSize`;
- the fade step of `draw`.

Collaborators are reduced to the boolean outcome they report, passed in as
parameters: the worker's `lock()`, the HTTP download, and the image decode.
`draw` also gets a parameter saying whether a texture is allocated.
`Lifecycle` puts these transitions into arbitrary action sequences (`Run`). It
proves the invariants, the end-to-end behaviour of each threaded path, and the
paths on which the owner is never notified.

Modules:

- `counters.dfy`, module `ProcessCounters`: the 32-bit counters.
- `resize.dfy`, module `Resize`: the decision part of `resizeIfNeeded`.
- `threaded_image.dfy`, module `ThreadedImage`: the entity and its transitions.
- `lifecycle.dfy`, module `Lifecycle`: action sequences and the properties of the lifecycle.

## Behaviour of note

The model follows the C++ code. In these places the code does not do what its
own comments and log messages suggest: `notify owner!` at line 248, and the
"thread is already running" error at line 117. The lemmas named below prove
what the code actually does:

- **`loadHttpImageThreaded` never sets `busy`.** So HTTP loads are not single-flight: a second call is accepted (`SecondThreadedHttpLoadAccepted`).
- **A threaded HTTP load from an idle image that fails never notifies.** Idle means not busy and no notification owed. The failure can be in the lock, the download or the decode. No event fires on any later frame, the frame hook stays registered, and the texture stays pending for good (`ThreadedHttpFailureNeverNotifies`). The call is accepted only when `busy` is false, and nothing on this path sets it, so `busy` is always false afterwards. The image does not get stuck busy on this path.
- **`loadImageBlocking` has no busy guard.** It runs and reports its decode result even while a threaded load is in flight (`BlockingLoadIgnoresBusy`).
- **`loadImageBlocking` does not store the path.** Its parameter shadows the `fileName` member.
- **`saveThreaded` and `loadHttpImageBlocking` never set `busy`** (`OnlyThreadedLoadSetsBusy`). `loadHttpImageBlocking` also never clears it. When its download fails it returns false but leaves the frame hook registered (`BlockingHttpFetchFailure`).
- **A blocking HTTP load from an idle image whose download succeeds but whose decode fails never notifies.** It leaves the texture pending, `problemLoading` false and the frame hook registered, so no later frame fires an event (`BlockingHttpDecodeFailureNeverNotifies`).
- **`pendingTexture` is cleared only by a successful upload.** `loadHttpImageThreaded` sets it before any pixels exist, so "pending texture implies pixels in memory" does not hold (`PendingTextureWithoutPixels`).
- **`loadImageBlocking` never clears `readyToDraw`.** A failed blocking load after a good one leaves the image drawable and flagged as a problem at the same time (`ReadyToDrawDespiteProblem`).
- **A lock failure on a threaded local load leaves the image busy**, when no notification or upload was owed before the threaded load, until a `loadImageBlocking` call is followed by a frame. Until then no frame fires and every guarded entry point refuses the image (`LockFailureLeavesImageBusy`). `loadImageBlocking` is unguarded and always raises an event on the next frame, and that frame clears `busy` (`BlockingLoadNotifiesNextFrame`).
- **A stale notification is reported as loaded.** A failed `loadImageBlocking` leaves a notification owed. A later HTTP load, threaded or blocking, clears `problemLoading` but not that notification. The next frame then fires an event marked loaded although the HTTP load failed and no pixels exist (`StaleFailureReportedAsLoaded`, `StaleFailureReportedAsLoadedBlocking`). If that frame comes before the worker of a threaded HTTP load, it removes the frame hook, and a download that then succeeds is never uploaded or notified (`StaleEventStrandsLaterSuccess`).
- **A reload from inside the event handler depends on how the image was loaded.** `_update` fires `imageReadyEvent` before it clears `busy`, the notification flag and the hook. When the image is not busy at the event (after a blocking load or a threaded HTTP load), a `loadHttpImageThreaded` or `loadImageBlocking` made by the handler loses its hook, so its texture is never uploaded or notified (`ReentrantHttpLoadIsStranded`, `ReentrantBlockingLoadIsStranded`). A `loadImageThreaded` made by the handler survives, because its worker goes through `loadImageBlocking`, which registers the hook again (`ReentrantThreadedLoadSurvives`). After a threaded local load the handler's guarded calls are refused, because `busy` is cleared only at line 284 (`ReentrantLoadRefusedAfterThreadedLoad`).

## Model

| member | source | states |
|---|---|---|
| ProcessCounters.Inc | src/ofxThreadedImage.cpp:77 | `numLoading++` on a 32-bit int: the result is congruent to x+1 modulo 2^32, and is larger than x unless x is the maximum |
| ProcessCounters.Dec | src/ofxThreadedImage.cpp:120 | `numLoading--` on a 32-bit int: the result is congruent to x-1 modulo 2^32, and is smaller than x unless x is the minimum |
| Resize.NeedsResize | src/ofxThreadedImage.cpp:38-43 | a decoded image is resized exactly when resizing is enabled and one of its sides exceeds `maxSideSize` (equivalently, the larger side does) |
| ThreadedImage.Construct | src/ofxThreadedImage.cpp:11-24 | a new image is idle and unregistered, with no pixels, no pending texture, not drawable, no problem, resizing off, alpha 1, rise speed 0.05, timeout 10 and empty path and URL; the three uninitialised fields hold the given values; `numAlive` goes up by one (mod 2^32) and `numLoading` is untouched |
| ThreadedImage.Destroy | src/ofxThreadedImage.cpp:26-36 | destruction takes one off `numAlive` (mod 2^32) and leaves `numLoading` alone |
| ThreadedImage.ConstrainImageSize | src/ofxThreadedImage.cpp:70-73 | afterwards an image of any size w×h is resized exactly when w or h exceeds the given side; nothing else changes |
| ThreadedImage.LoadImageThreaded | src/ofxThreadedImage.cpp:130-145 | accepted exactly when not busy; a refusal changes nothing; acceptance makes the image busy and registered, sets task LOAD and the path, clears readiness and the problem flag, and zeroes alpha; no other field changes |
| ThreadedImage.LoadImageBlocking | src/ofxThreadedImage.cpp:148-167 | with no busy guard: returns the decode outcome; afterwards the texture is pending, the hook registered, the task is LOAD, `imageLoaded` equals the outcome and `problemLoading` its negation, and alpha is 0; a notification is raised only on failure; no other field changes, so `busy`, `readyToDraw` and the stored path are untouched |
| ThreadedImage.LoadHttpImageBlocking | src/ofxThreadedImage.cpp:170-205 | true exactly when not busy and both the download and the decode succeed; when busy nothing changes; a failed download keeps the pixel flags; a good download makes the texture pending with `imageLoaded` equal to the decode outcome; never changes `busy` or the notification flag; writes only the hook, alpha, task, URL, readiness, problem and pixel flags |
| ThreadedImage.LoadHttpImageThreaded | src/ofxThreadedImage.cpp:208-224 | accepted exactly when not busy; a refusal changes nothing; acceptance registers the hook, sets task LOAD_HTTP and the URL, marks the texture pending with no pixels, and clears the problem and readiness flags; `busy`, the notification flag and every other field never change |
| ThreadedImage.SaveThreaded | src/ofxThreadedImage.cpp:253-261 | accepted exactly when not busy; a refusal changes nothing; acceptance records task SAVE, the path and the quality and changes nothing else, so it never sets `busy` or registers the hook |
| ThreadedImage.FetchAndDecode | src/ofxThreadedImage.cpp:94-112 | the worker's LOAD_HTTP branch: pixels become available only when both the download and the decode succeed (never cleared), and alpha is reset; nothing else changes, so no notification is ever raised |
| ThreadedImage.Worker | src/ofxThreadedImage.cpp:75-127 | whatever the task or lock outcome, the counters end as they began; a failed lock or a SAVE leaves the image unchanged; a LOAD behaves as `loadImageBlocking` on the stored path; a LOAD_HTTP only sets pixels on full success and resets alpha; `busy` and the configuration never change |
| ThreadedImage.UpdateTextureIfNeeded | src/ofxThreadedImage.cpp:237-250 | no-op without a pending texture; otherwise it always raises the notification; it becomes drawable and stops pending exactly when there was no loading problem; nothing else changes |
| ThreadedImage.Update | src/ofxThreadedImage.cpp:268-286 | fires at most one event, exactly when a notification was owed or pixels with a pending texture were present; the event is marked loaded exactly when there was no problem; firing releases the image (not busy, hook removed) and on a problem drops the pixels; the texture stays pending unless it was uploaded; with no event the image is unchanged; never leaves a notification owed; only the flags named here change |
| ThreadedImage.Tick | src/ofxThreadedImage.cpp:268-286 | a frame runs `_update` only while it is registered; an unregistered image is untouched and fires nothing |
| ThreadedImage.Draw | src/ofxThreadedImage.cpp:294-312 | alpha changes only when pixels are loaded, fade is requested, alpha < 1 and the task is LOAD or LOAD_HTTP; then it becomes alpha+speed clamped to at most 1; a tinted draw happens exactly when the first three hold (using the new alpha), otherwise a plain draw exactly when a texture is allocated |
| ThreadedImage.UpdateWithHandler | src/ofxThreadedImage.cpp:274-285 | `_update` with the owner's handler run synchronously at the event: at most one event, exactly when a notification was owed or pixels with a pending texture were present, marked loaded exactly when there was no problem; whatever the handler did, the image ends not busy, unregistered and owing no notification; with no event the image is unchanged; on an event the result is what the handler returns when given the image after the upload, still busy, registered and owing the notification, with only the three clears applied on top |
| Lifecycle.Step | src/ofxThreadedImage.cpp:75-286 | any single call, worker run, frame or draw leaves the process counters as they were, and only a frame fires events; a worker is pending exactly when an accepted threaded entry point started one that has not yet run, and a worker run with none pending does nothing |
| Lifecycle.Run | src/ofxThreadedImage.cpp:75-127 | after any sequence of actions `numAlive` and `numLoading` are back at their starting values |
| Lifecycle.BusyGuard | src/ofxThreadedImage.cpp:130-261 | while busy, `loadImageThreaded`, `loadHttpImageBlocking`, `loadHttpImageThreaded` and `saveThreaded` are refused and change nothing |
| Lifecycle.BlockingLoadIgnoresBusy | src/ofxThreadedImage.cpp:148-167 | `loadImageBlocking` on a busy image still runs, changes the image and returns the decode outcome |
| Lifecycle.OnlyThreadedLoadSetsBusy | src/ofxThreadedImage.cpp:170-261 | an accepted `loadHttpImageBlocking`, `loadHttpImageThreaded` or `saveThreaded` leaves a non-busy image not busy |
| Lifecycle.ConstructEstablishesInv | src/ofxThreadedImage.cpp:11-24 | a new image satisfies the lifecycle invariant |
| Lifecycle.StepPreservesInv | src/ofxThreadedImage.cpp:130-312 | every action keeps the invariant: busy implies registered, an owed notification implies registered, alpha within [0, 1] |
| Lifecycle.RunPreservesInv | src/ofxThreadedImage.cpp:130-312 | the invariant holds after any sequence of actions |
| Lifecycle.StepEventsPaidByCall | src/ofxThreadedImage.cpp:75-286 | one action fires no more events than it consumes from what the image owes (an owed notification, an upload waiting on pixels, a started worker), and only an entry-point call adds to that, by at most one |
| Lifecycle.RunEventsPaidByCalls | src/ofxThreadedImage.cpp:75-286 | over any sequence of actions, events fired never exceed entry-point calls plus what was owed at the start: no call yields two events |
| Lifecycle.OneThreadedLoadOneEvent | src/ofxThreadedImage.cpp:130-145 | one threaded load followed by two worker runs and two frames fires exactly one event, because the thread runs once per start |
| Lifecycle.FreshEventsBoundedByCalls | src/ofxThreadedImage.cpp:268-286 | from a fresh image, events never outnumber entry-point calls |
| Lifecycle.PendingNotificationDelivered | src/ofxThreadedImage.cpp:274-285 | in a reachable state an owed notification is delivered on the next frame as exactly one event, leaving the image idle and unregistered |
| Lifecycle.NoSecondNotification | src/ofxThreadedImage.cpp:268-286 | the frame after any frame fires no event |
| Lifecycle.TicksAtRest | src/ofxThreadedImage.cpp:268-286 | a frame that fires nothing leaves the image unchanged for any number of further frames |
| Lifecycle.QuietAfterNotification | src/ofxThreadedImage.cpp:283-284 | once the hook is removed, no number of frames fires anything or changes the image |
| Lifecycle.ThreadedLoadDeliversOneEvent | src/ofxThreadedImage.cpp:75-286 | a threaded load from a non-busy image, then a worker run that gets the lock, then one frame fire exactly one event carrying the decode outcome; the image ends idle and unregistered, drawable on success, and without pixels or readiness on failure |
| Lifecycle.ThreadedHttpSuccessDeliversOneEvent | src/ofxThreadedImage.cpp:94-286 | a threaded HTTP load whose download and decode succeed fires exactly one loaded event on the next frame and ends idle, drawable and with no texture pending |
| Lifecycle.ThreadedHttpFailureNeverNotifies | src/ofxThreadedImage.cpp:94-286 | from an idle image, a threaded HTTP load whose lock, download or decode fails never fires an event on any number of later frames; the hook stays registered, the texture pending, and `busy` false |
| Lifecycle.LockFailureLeavesImageBusy | src/ofxThreadedImage.cpp:116-120 | when no notification or upload was owed before it, a threaded local load whose worker cannot lock changes nothing further; no later frame fires, and the image stays busy |
| Lifecycle.SecondThreadedLoadRefused | src/ofxThreadedImage.cpp:130-145 | a second `loadImageThreaded` before the first completes is refused without effect, and the first still completes with its own event |
| Lifecycle.SecondThreadedHttpLoadAccepted | src/ofxThreadedImage.cpp:208-224 | a second `loadHttpImageThreaded` before the first completes is accepted and replaces the URL |
| Lifecycle.BlockingLoadNotifiesNextFrame | src/ofxThreadedImage.cpp:148-167 | after any `loadImageBlocking`, the next frame fires exactly one event carrying the decode outcome and leaves the image not busy and unregistered |
| Lifecycle.BlockingHttpDecodeFailureNeverNotifies | src/ofxThreadedImage.cpp:196-203 | from an idle image, a blocking HTTP load with a good download and a failed decode returns false and leaves the texture pending, no problem flag and the hook registered; no number of later frames fires an event |
| Lifecycle.BlockingHttpFetchFailure | src/ofxThreadedImage.cpp:181-195 | a blocking HTTP load whose download fails returns false, loads no pixels and leaves the image not busy but registered |
| Lifecycle.DrawKeepsFadeInRange | src/ofxThreadedImage.cpp:296-300 | with alpha in [0, 1] and a non-negative rise speed, a draw keeps alpha in [0, 1] and never lowers it |
| Lifecycle.ConstructThenDestroy | src/ofxThreadedImage.cpp:23-35 | construction followed by destruction leaves both process counters where they were |
| Lifecycle.ReadyToDrawDespiteProblem | src/ofxThreadedImage.cpp:148-167 | after a good threaded load and then a failed blocking load, the image is drawable and flagged as a problem at once |
| Lifecycle.StaleFailureReportedAsLoaded | src/ofxThreadedImage.cpp:148-224 | from a non-busy image, a failed `loadImageBlocking`, an accepted `loadHttpImageThreaded` and a worker run that fails in any way are followed by a frame that fires one event marked loaded, with no pixels and the hook removed |
| Lifecycle.StaleFailureReportedAsLoadedBlocking | src/ofxThreadedImage.cpp:148-205 | from a non-busy image, a failed `loadImageBlocking` and a blocking HTTP load whose decode fails are followed by a frame that fires one event marked loaded, with no pixels |
| Lifecycle.StaleEventStrandsLaterSuccess | src/ofxThreadedImage.cpp:208-286 | when the stale event fires before the HTTP worker runs, a later successful download leaves pixels with the texture pending and not drawable, and no number of frames fires an event or changes the image |
| Lifecycle.UpdateIsQuietHandler | src/ofxThreadedImage.cpp:274-285 | `_update` with a handler that leaves the image alone is the model's `Update` |
| Lifecycle.ReentrantHttpLoadIsStranded | src/ofxThreadedImage.cpp:208-285 | a `loadHttpImageThreaded` started from the event handler of a non-busy image is accepted and stores its URL and task, but ends unregistered; after a successful worker run the pixels stay pending, the image is not drawable, and no number of frames fires an event |
| Lifecycle.ReentrantLoadRefusedAfterThreadedLoad | src/ofxThreadedImage.cpp:130-285 | after a threaded local load and its worker, the image is still busy at the event, so a handler's `loadHttpImageThreaded` is refused and the frame equals the plain `_update`, reporting the decode outcome |
| Lifecycle.ReentrantThreadedLoadSurvives | src/ofxThreadedImage.cpp:75-285 | a `loadImageThreaded` made by the handler of a non-busy image stores its path and ends unregistered, yet after its worker runs the next frame fires one event carrying the decode outcome |
| Lifecycle.ReentrantBlockingLoadIsStranded | src/ofxThreadedImage.cpp:148-285 | a `loadImageBlocking` made by the handler, busy or not, leaves the texture pending with the decode outcome as pixels but no hook and no notification owed; no number of frames fires an event |
| Lifecycle.PendingTextureWithoutPixels | src/ofxThreadedImage.cpp:208-224 | right after `loadHttpImageThreaded` the texture is pending while no pixels exist |

## Left out

- Threading: `startThread`, `stopThread`, the thread name, `lock`/`unlock` as a real mutex, and the destructor's join. The worker runs as one atomic step between frames. Its lock outcome is a parameter. Interleavings inside a worker run are not modelled. Each accepted threaded entry point starts one run. A second start before that run has happened still gives a single run, since `startThread` on a thread that is already started is outside this model.
- The HTTP client, the download directory, and the file write of the downloaded body. They appear only as the download outcome `fetchOk`. The timeout is stored but never acts.
- Image decode and encode, `setUseTexture`, and the pixel resize itself. Decode is the outcome `decodeOk`. A save has no modelled effect, because its result is never checked. The resized dimensions are left out because they come from a float scale truncated to int.
- GPU work: texture allocation, compression, `ofImage::update` and the actual drawing. An upload only sets `readyToDraw`. Whether a texture is allocated is a parameter of `Draw`. `setTexCompression` only stores a mode the model never reads, so it is not modelled.
- The three-argument `draw` overload. It only forwards to the four-argument form with the pixel dimensions.
- The `isReadyToDraw` and `arePixelsAvailable` getters. They read `readyToDraw` and `imageLoaded` directly.
- ThreadedImage.Draw: alpha and its rise speed are exact reals, not floats. Only the clamp and the branch conditions are stated, not how many frames a fade takes.
- The event payload's default `loaded` value is defined in the header, which is not part of this model. An event's success flag is taken to be the negation of `problemLoading`.
- ThreadedImage.Update: the owner's `imageReadyEvent` handler runs synchronously at line 281, before the clears at lines 282-284. `Update` and the `Lifecycle` action sequences assume the handler does not call back into the image. `UpdateWithHandler` takes the handler as a function, and the four `Lifecycle.Reentrant…` lemmas show what a call made from inside it does.
- Process counters across images: `numAlive` and `numLoading` are static ints shared by every image, and workers of different images update them without a lock. The model has one image and atomic worker runs, so `Lifecycle.Run` returning the counters to their start holds only without concurrent workers of other images.
- ProcessCounters.Inc: signed overflow is undefined in C++. Two's-complement wrap-around is what the model assumes.

=== FILE: counters.dfy ===
/** Process-wide diagnostic counters shared by every image entity.
    Both are plain 32-bit `int`s in the C++ code; `++` and `--` are modelled
    with the two's-complement wrap-around that the hardware performs. */
module ProcessCounters {

  const INT32_MIN: int := -0x8000_0000
  const INT32_MAX: int := 0x7fff_ffff
  const INT32_MODULUS: int := 0x1_0000_0000

  type Int32 = x: int | INT32_MIN <= x <= INT32_MAX

  /** `x++` on a 32-bit int. */
  function Inc(x: Int32): (r: Int32)
    ensures (r - x - 1) % INT32_MODULUS == 0
    ensures x < INT32_MAX ==> r > x
  {
    if x == INT32_MAX then INT32_MIN else x + 1
  }

  /** `x--` on a 32-bit int. */
  function Dec(x: Int32): (r: Int32)
    ensures (x - r - 1) % INT32_MODULUS == 0
    ensures x > INT32_MIN ==> r < x
  {
    if x == INT32_MIN then INT32_MAX else x - 1
  }

  /** `numAlive` counts constructed-but-not-destroyed entities,
      `numLoading` counts background workers currently running. */
  datatype Counters = Counters(numAlive: Int32, numLoading: Int32)

  /** Both statics start at zero. */
  const Initial: Counters := Counters(0, 0)

}

=== FILE: lifecycle.dfy ===
/** Sequences of calls on one image: the entry points, worker runs and
    frames in any order, with the properties that hold across them. Every
    lemma here describes the code as written, including the places where a
    task can end without ever notifying its owner. */
module Lifecycle {

  import opened ProcessCounters
  import opened ThreadedImage

  /** One thing that can happen to an image between two observations. */
  datatype Action =
    | StartLoad(path: string)                                   // loadImageThreaded
    | LoadNow(path: string, decodeOk: bool)                     // loadImageBlocking
    | FetchNow(url: string, fetchOk: bool, decodeOk: bool)      // loadHttpImageBlocking
    | StartFetch(url: string)                                   // loadHttpImageThreaded
    | StartSave(path: string, quality: Quality)                 // saveThreaded
    | WorkerRun(lockOk: bool, fetchOk: bool, decodeOk: bool)    // threadedFunction
    | NextFrame                                                 // the update event
    | DrawImage(fadeInOnLoad: bool, texAllocated: bool)         // draw
    | Constrain(largestSide: int)                               // constrainImageSize

  /** One image together with the process-wide counters. `workerPending`
      records that an accepted threaded entry point has called `startThread`
      and the resulting run of `threadedFunction` has not happened yet. */
  datatype Sys = Sys(entity: Entity, counters: Counters, workerPending: bool)

  datatype Stepped = Stepped(after: Sys, events: seq<Event>)

  /** The entry points that start the background thread when accepted. */
  predicate StartsThread(a: Action)
  {
    a.StartLoad? || a.StartFetch? || a.StartSave?
  }

  /** A worker runs once for each thread an accepted threaded entry point
      started, and a `WorkerRun` with no thread started does nothing. */
  function Step(s: Sys, a: Action): (r: Stepped)
    ensures r.after.counters == s.counters
    ensures !a.NextFrame? ==> r.events == []
    ensures r.after.workerPending <==>
      (s.workerPending && !a.WorkerRun?) || (StartsThread(a) && !s.entity.busy)
    ensures a.WorkerRun? && !s.workerPending ==> r == Stepped(s, [])
  {
    var e := s.entity;
    match a
    case StartLoad(path) =>
      var call := LoadImageThreaded(e, path);
      Stepped(s.(entity := call.after, workerPending := s.workerPending || call.ok), [])
    case LoadNow(path, decodeOk) => Stepped(s.(entity := LoadImageBlocking(e, path, decodeOk).after), [])
    case FetchNow(url, fetchOk, decodeOk) =>
      Stepped(s.(entity := LoadHttpImageBlocking(e, url, fetchOk, decodeOk).after), [])
    case StartFetch(url) =>
      var call := LoadHttpImageThreaded(e, url);
      Stepped(s.(entity := call.after, workerPending := s.workerPending || call.ok), [])
    case StartSave(path, quality) =>
      var call := SaveThreaded(e, path, quality);
      Stepped(s.(entity := call.after, workerPending := s.workerPending || call.ok), [])
    case WorkerRun(lockOk, fetchOk, decodeOk) =>
      if s.workerPending then
        var w := Worker(e, s.counters, lockOk, fetchOk, decodeOk);
        Stepped(Sys(w.after, w.counters, false), [])
      else
        Stepped(s, [])
    case NextFrame =>
      var f := Tick(e);
      Stepped(s.(entity := f.after), f.events)
    case DrawImage(fadeInOnLoad, texAllocated) =>
      Stepped(s.(entity := Draw(e, fadeInOnLoad, texAllocated).after), [])
    case Constrain(largestSide) => Stepped(s.(entity := ConstrainImageSize(e, largestSide)), [])
  }

  /** Runs the actions in order, collecting the events they fire. Because
      every worker run decrements what it incremented, the counters come
      back to where they started after any sequence of actions. */
  function Run(s: Sys, acts: seq<Action>): (r: Stepped)
    ensures r.after.counters == s.counters
    ensures |r.events| <= |acts|
    decreases |acts|
  {
    if acts == [] then Stepped(s, [])
    else
      var first := Step(s, acts[0]);
      var rest := Run(first.after, acts[1..]);
      Stepped(rest.after, first.events + rest.events)
  }

  /** Runs `n` frames with no other action in between. */
  function Ticks(e: Entity, n: nat): (r: Frame)
    decreases n
  {
    if n == 0 then Frame(e, [])
    else
      var first := Tick(e);
      var rest := Ticks(first.after, n - 1);
      Frame(rest.after, first.events + rest.events)
  }

  /** Facts that hold in every reachable state: a busy image and an owed
      notification both have the frame hook registered (so the hook, not
      luck, is what releases them), and the fade stays in [0, 1]. */
  predicate Inv(e: Entity)
  {
    (e.busy ==> e.listening)
    && (e.pendingNotification ==> e.listening)
    && 0.0 <= e.alpha <= 1.0
    && 0.0 <= e.alphaRiseSpeed
  }

  /** The entry points that check `busy` first. */
  predicate Guarded(a: Action)
  {
    a.StartLoad? || a.FetchNow? || a.StartFetch? || a.StartSave?
  }

  /** The calls an owner makes on the image: every entry point. */
  predicate EntryCall(a: Action)
  {
    a.StartLoad? || a.LoadNow? || a.FetchNow? || a.StartFetch? || a.StartSave?
  }

  function EntryCalls(acts: seq<Action>): (n: nat)
    ensures n <= |acts|
  {
    if acts == [] then 0 else (if EntryCall(acts[0]) then 1 else 0) + EntryCalls(acts[1..])
  }

  /** Events the image can still fire without a new entry-point call: one
      for an owed notification or an upload waiting on loaded pixels, and one
      for a started worker that has not run yet. */
  function Debt(s: Sys): nat
  {
    var e := s.entity;
    (if e.pendingNotification || (e.imageLoaded && e.pendingTexture) then 1 else 0)
    + (if s.workerPending then 1 else 0)
  }

  /** The busy guard: while busy, the four guarded entry points are refused
      and change nothing. */
  lemma BusyGuard(s: Sys, a: Action)
    requires s.entity.busy && Guarded(a)
    ensures Step(s, a) == Stepped(s, [])
  {
  }

  /** `loadImageBlocking` has no busy guard: it runs, and reports the decode
      outcome, even while a threaded task is in flight. */
  lemma BlockingLoadIgnoresBusy(e: Entity, path: string, decodeOk: bool)
    requires e.busy && !e.pendingTexture
    ensures LoadImageBlocking(e, path, decodeOk).ok == decodeOk
    ensures LoadImageBlocking(e, path, decodeOk).after != e
  {
  }

  /** Of the guarded entry points only `loadImageThreaded` claims the image:
      after any other accepted call it is still not busy. */
  lemma OnlyThreadedLoadSetsBusy(s: Sys, a: Action)
    requires !s.entity.busy && Guarded(a) && !a.StartLoad?
    ensures !Step(s, a).after.entity.busy
  {
  }

  lemma ConstructEstablishesInv(c: Counters, whatToDo: Task, maxSideSize: int, quality: Quality)
    ensures Inv(Construct(c, whatToDo, maxSideSize, quality).entity)
  {
  }

  lemma StepPreservesInv(s: Sys, a: Action)
    requires Inv(s.entity)
    ensures Inv(Step(s, a).after.entity)
  {
  }

  lemma {:induction false} RunPreservesInv(s: Sys, acts: seq<Action>)
    requires Inv(s.entity)
    ensures Inv(Run(s, acts).after.entity)
    decreases |acts|
  {
    if acts != [] {
      StepPreservesInv(s, acts[0]);
      RunPreservesInv(Step(s, acts[0]).after, acts[1..]);
    }
  }

  /** Every event is paid for by an entry-point call: a frame fires only
      what is owed and clears it, a worker run only turns its own start into
      at most one owed event, and an entry point adds at most one. */
  lemma StepEventsPaidByCall(s: Sys, a: Action)
    ensures |Step(s, a).events| + Debt(Step(s, a).after) <= Debt(s) + (if EntryCall(a) then 1 else 0)
  {
  }

  /** So over any sequence of actions the events fired never outnumber the
      entry-point calls (plus what was owed at the start): one load or save
      call yields at most one `imageReadyEvent`. */
  lemma {:induction false} RunEventsPaidByCalls(s: Sys, acts: seq<Action>)
    ensures |Run(s, acts).events| + Debt(Run(s, acts).after) <= Debt(s) + EntryCalls(acts)
    decreases |acts|
  {
    if acts != [] {
      StepEventsPaidByCall(s, acts[0]);
      RunEventsPaidByCalls(Step(s, acts[0]).after, acts[1..]);
    }
  }

  /** A worker run with no thread started does nothing: one threaded load
      yields one event however many worker runs and frames follow. */
  lemma OneThreadedLoadOneEvent()
    ensures |Run(Fresh(), [StartLoad("a.png"), WorkerRun(true, false, false), NextFrame,
                           WorkerRun(true, false, false), NextFrame]).events| == 1
  {
  }

  /** From a fresh image, events never outnumber entry-point calls. */
  lemma FreshEventsBoundedByCalls(acts: seq<Action>)
    ensures |Run(Fresh(), acts).events| <= EntryCalls(acts)
  {
    RunEventsPaidByCalls(Fresh(), acts);
  }

  /** An owed notification is delivered on the very next frame, as exactly
      one event that releases the image. */
  lemma PendingNotificationDelivered(e: Entity)
    requires Inv(e) && e.pendingNotification
    ensures |Tick(e).events| == 1
    ensures Idle(Tick(e).after) && !Tick(e).after.listening
  {
  }

  /** No duplicate: a frame that follows another frame fires nothing. */
  lemma NoSecondNotification(e: Entity)
    ensures Tick(Tick(e).after).events == []
  {
  }

  /** A frame that finds nothing to do leaves the image as it is, so any
      number of further frames fire nothing either. */
  lemma {:induction false} TicksAtRest(e: Entity, n: nat)
    requires Tick(e).events == []
    ensures Ticks(e, n) == Frame(e, [])
    decreases n
  {
    if n > 0 {
      TicksAtRest(e, n - 1);
    }
  }

  /** A released image stays quiet for every later frame. */
  lemma {:induction false} QuietAfterNotification(e: Entity, n: nat)
    requires !e.listening
    ensures Ticks(e, n) == Frame(e, [])
  {
    TicksAtRest(e, n);
  }

  /** Threaded load, end to end: from a non-busy image, `loadImageThreaded`,
      a worker run that gets the lock, and one frame deliver exactly one
      event, carrying the decode outcome, and release the image. */
  lemma ThreadedLoadDeliversOneEvent(e: Entity, path: string, c: Counters, fetchOk: bool, decodeOk: bool)
    requires !e.busy
    ensures var started := LoadImageThreaded(e, path);
            var w := Worker(started.after, c, true, fetchOk, decodeOk);
            var f := Tick(w.after);
            && started.ok && w.counters == c
            && f.events == [ImageReady(decodeOk)]
            && Idle(f.after) && !f.after.listening
            && (decodeOk ==> f.after.readyToDraw && f.after.imageLoaded && !f.after.pendingTexture)
            && (!decodeOk ==> !f.after.imageLoaded && !f.after.readyToDraw)
  {
  }

  /** Threaded HTTP load that succeeds, end to end: one event marked loaded,
      the texture uploaded and the hook removed. */
  lemma ThreadedHttpSuccessDeliversOneEvent(e: Entity, url: string, c: Counters)
    requires !e.busy
    ensures var started := LoadHttpImageThreaded(e, url);
            var w := Worker(started.after, c, true, true, true);
            var f := Tick(w.after);
            && started.ok && w.counters == c
            && f.events == [ImageReady(true)]
            && Idle(f.after) && !f.after.listening
            && f.after.readyToDraw && f.after.imageLoaded && !f.after.pendingTexture
  {
  }

  /** Threaded HTTP load that fails (lock, download or decode): the worker
      leaves no pixels and no notification, so no later frame ever fires an
      event. The hook stays registered and the texture stays pending for
      good, and the owner is never told. */
  lemma {:induction false} ThreadedHttpFailureNeverNotifies(
    e: Entity, url: string, c: Counters, lockOk: bool, fetchOk: bool, decodeOk: bool, n: nat)
    requires Idle(e) && !(lockOk && fetchOk && decodeOk)
    ensures var started := LoadHttpImageThreaded(e, url);
            var w := Worker(started.after, c, lockOk, fetchOk, decodeOk);
            var f := Ticks(w.after, n);
            && started.ok && w.counters == c
            && f.events == [] && f.after == w.after
            && !f.after.imageLoaded && !f.after.pendingNotification
            && f.after.listening && f.after.pendingTexture && !f.after.readyToDraw
            && !f.after.busy
  {
    var started := LoadHttpImageThreaded(e, url);
    var w := Worker(started.after, c, lockOk, fetchOk, decodeOk);
    assert !w.after.imageLoaded && !w.after.pendingNotification;
    TicksAtRest(w.after, n);
  }

  /** Lock contention on a threaded load: the worker does nothing and, with
      no texture or notification already owed, every later frame fires
      nothing, so the image stays busy for good and refuses every guarded
      entry point. */
  lemma {:induction false} LockFailureLeavesImageBusy(e: Entity, path: string, c: Counters, fetchOk: bool, decodeOk: bool, n: nat)
    requires Idle(e) && !(e.imageLoaded && e.pendingTexture)
    ensures var started := LoadImageThreaded(e, path);
            var w := Worker(started.after, c, false, fetchOk, decodeOk);
            var f := Ticks(w.after, n);
            && w.after == started.after && w.counters == c
            && f.events == [] && f.after.busy
  {
    var started := LoadImageThreaded(e, path);
    TicksAtRest(started.after, n);
  }

  /** Single flight for local loads: a second `loadImageThreaded` before the
      first completes is refused, and the first still completes with its
      own event. */
  lemma SecondThreadedLoadRefused(e: Entity, first: string, second: string, c: Counters, decodeOk: bool)
    requires !e.busy
    ensures var a := LoadImageThreaded(e, first);
            var b := LoadImageThreaded(a.after, second);
            && a.ok && !b.ok && b.after == a.after
            && b.after.fileName == first
            && Tick(Worker(b.after, c, true, false, decodeOk).after).events == [ImageReady(decodeOk)]
  {
    ThreadedLoadDeliversOneEvent(e, first, c, false, decodeOk);
  }

  /** No single flight for HTTP loads: `loadHttpImageThreaded` leaves the
      image not busy, so a second call before the first worker has run is
      accepted and overwrites the URL. */
  lemma SecondThreadedHttpLoadAccepted(e: Entity, first: string, second: string)
    requires !e.busy
    ensures var a := LoadHttpImageThreaded(e, first);
            var b := LoadHttpImageThreaded(a.after, second);
            a.ok && b.ok && b.after.url == second
  {
  }

  /** A blocking HTTP load whose download fails reports false, loads no
      pixels and leaves the image not busy, yet leaves the hook registered. */
  lemma BlockingHttpFetchFailure(e: Entity, url: string, decodeOk: bool)
    requires Idle(e) && !e.imageLoaded
    ensures var r := LoadHttpImageBlocking(e, url, false, decodeOk);
            !r.ok && !r.after.imageLoaded && !r.after.busy && r.after.listening
  {
  }

  /** The fade never leaves [0, 1] and never runs backwards. */
  lemma DrawKeepsFadeInRange(e: Entity, fadeInOnLoad: bool, texAllocated: bool)
    requires 0.0 <= e.alpha <= 1.0 && 0.0 <= e.alphaRiseSpeed
    ensures var a := Draw(e, fadeInOnLoad, texAllocated).after.alpha;
            e.alpha <= a <= 1.0
  {
  }

  /** The constructor's `numAlive++` is undone by the destructor's. */
  lemma ConstructThenDestroy(c: Counters, whatToDo: Task, maxSideSize: int, quality: Quality)
    ensures Destroy(Construct(c, whatToDo, maxSideSize, quality).counters) == c
  {
  }

  /** `loadImageBlocking` always leads to exactly one event on the next
      frame, carrying its decode outcome, and that frame releases the image.
      Having no busy guard, it is also what frees an image left busy by a
      failed lock. */
  lemma BlockingLoadNotifiesNextFrame(e: Entity, path: string, decodeOk: bool)
    ensures var f := Tick(LoadImageBlocking(e, path, decodeOk).after);
            f.events == [ImageReady(decodeOk)] && !f.after.busy && !f.after.listening
  {
  }

  /** A blocking HTTP load whose download succeeds but whose decode fails
      reports false and raises no notification: the texture stays pending,
      the hook stays registered, and no later frame ever fires an event. */
  lemma {:induction false} BlockingHttpDecodeFailureNeverNotifies(e: Entity, url: string, n: nat)
    requires Idle(e)
    ensures var r := LoadHttpImageBlocking(e, url, true, false);
            && !r.ok && !r.after.busy && r.after.listening
            && r.after.pendingTexture && !r.after.imageLoaded && !r.after.problemLoading
            && Ticks(r.after, n) == Frame(r.after, [])
  {
    var r := LoadHttpImageBlocking(e, url, true, false);
    TicksAtRest(r.after, n);
  }

  /** A failed `loadImageBlocking` leaves a notification owed. A threaded
      HTTP load accepted before the next frame clears `problemLoading` but not
      that notification, so the next frame reports the stale event as
      loaded, although the HTTP load failed and no pixels exist. */
  lemma StaleFailureReportedAsLoaded(
    e: Entity, path: string, url: string, c: Counters, lockOk: bool, fetchOk: bool, decodeOk: bool)
    requires !e.busy && !(lockOk && fetchOk && decodeOk)
    ensures var failed := LoadImageBlocking(e, path, false).after;
            var started := LoadHttpImageThreaded(failed, url);
            var f := Tick(Worker(started.after, c, lockOk, fetchOk, decodeOk).after);
            && started.ok && f.events == [ImageReady(true)]
            && !f.after.imageLoaded && !f.after.listening
  {
  }

  /** The same for a blocking HTTP load whose decode fails. */
  lemma StaleFailureReportedAsLoadedBlocking(e: Entity, path: string, url: string)
    requires !e.busy
    ensures var failed := LoadImageBlocking(e, path, false).after;
            var f := Tick(LoadHttpImageBlocking(failed, url, true, false).after);
            f.events == [ImageReady(true)] && !f.after.imageLoaded
  {
  }

  /** If that stale event fires before the worker runs, it removes the hook,
      so a download and decode that then succeed are never uploaded and
      never notified, on any number of later frames. */
  lemma {:induction false} StaleEventStrandsLaterSuccess(e: Entity, path: string, url: string, c: Counters, n: nat)
    requires !e.busy
    ensures var failed := LoadImageBlocking(e, path, false).after;
            var started := LoadHttpImageThreaded(failed, url);
            var stale := Tick(started.after);
            var w := Worker(stale.after, c, true, true, true);
            && stale.events == [ImageReady(true)]
            && w.after.imageLoaded && w.after.pendingTexture && !w.after.readyToDraw
            && Ticks(w.after, n) == Frame(w.after, [])
  {
    var failed := LoadImageBlocking(e, path, false).after;
    var started := LoadHttpImageThreaded(failed, url);
    var stale := Tick(started.after);
    var w := Worker(stale.after, c, true, true, true);
    QuietAfterNotification(w.after, n);
  }

  /** `Update` is `_update` with a handler that leaves the image alone. */
  lemma UpdateIsQuietHandler(e: Entity)
    ensures UpdateWithHandler(e, (x: Entity) => x) == Update(e)
  {
  }

  /** An owner's handler that starts a threaded HTTP load from inside the
      event is accepted (the image is not yet released), but the clears after
      the handler remove the hook it registered. The load's pixels, once the
      worker has fetched them, are never uploaded and never notified. */
  lemma {:induction false} ReentrantHttpLoadIsStranded(e: Entity, url: string, c: Counters, n: nat)
    requires !e.busy && e.pendingNotification
    ensures var handler := (x: Entity) => LoadHttpImageThreaded(x, url).after;
            var f := UpdateWithHandler(e, handler);
            var w := Worker(f.after, c, true, true, true);
            && |f.events| == 1
            && f.after.url == url && f.after.whatToDo == LoadHttp && !f.after.listening
            && w.after.imageLoaded && w.after.pendingTexture && !w.after.readyToDraw
            && Ticks(w.after, n) == Frame(w.after, [])
  {
    var handler := (x: Entity) => LoadHttpImageThreaded(x, url).after;
    var f := UpdateWithHandler(e, handler);
    var w := Worker(f.after, c, true, true, true);
    QuietAfterNotification(w.after, n);
  }

  /** After a threaded local load, `busy` is still set when the handler runs
      (it is cleared only after the event), so a `loadHttpImageThreaded` made
      by the handler is refused and the frame is the plain `_update`. */
  lemma ReentrantLoadRefusedAfterThreadedLoad(
    e: Entity, path: string, url: string, c: Counters, fetchOk: bool, decodeOk: bool)
    requires !e.busy
    ensures var w := Worker(LoadImageThreaded(e, path).after, c, true, fetchOk, decodeOk);
            var handler := (x: Entity) => LoadHttpImageThreaded(x, url).after;
            var f := UpdateWithHandler(w.after, handler);
            && w.after.busy
            && !LoadHttpImageThreaded(w.after, url).ok
            && f == Update(w.after)
            && f.events == [ImageReady(decodeOk)] && f.after.url == e.url
  {
  }

  /** A `loadImageThreaded` made by the handler of a non-busy image is not
      lost: its worker goes through `loadImageBlocking`, which registers the
      hook again, so the next frame reports the handler's load. */
  lemma ReentrantThreadedLoadSurvives(
    e: Entity, path: string, c: Counters, fetchOk: bool, decodeOk: bool)
    requires !e.busy && e.pendingNotification
    ensures var handler := (x: Entity) => LoadImageThreaded(x, path).after;
            var f := UpdateWithHandler(e, handler);
            var w := Worker(f.after, c, true, fetchOk, decodeOk);
            var g := Tick(w.after);
            && |f.events| == 1 && f.after.fileName == path && !f.after.listening
            && g.events == [ImageReady(decodeOk)] && !g.after.listening
  {
  }

  /** A `loadImageBlocking` made by the handler, busy or not, is stranded:
      the clears after the handler remove its hook and the notification it
      may have raised, so its texture stays pending and no frame reports it. */
  lemma {:induction false} ReentrantBlockingLoadIsStranded(e: Entity, path: string, decodeOk: bool, n: nat)
    requires e.pendingNotification || (e.imageLoaded && e.pendingTexture)
    ensures var handler := (x: Entity) => LoadImageBlocking(x, path, decodeOk).after;
            var f := UpdateWithHandler(e, handler);
            && |f.events| == 1
            && f.after.pendingTexture && f.after.imageLoaded == decodeOk
            && !f.after.listening && !f.after.pendingNotification
            && Ticks(f.after, n) == Frame(f.after, [])
  {
    var handler := (x: Entity) => LoadImageBlocking(x, path, decodeOk).after;
    var f := UpdateWithHandler(e, handler);
    QuietAfterNotification(f.after, n);
  }

  /** A fresh image with nothing but default settings. */
  function Fresh(): Sys
  {
    var b := Construct(Initial, Load, 0, Best);
    Sys(b.entity, b.counters, false)
  }

  /** A successful threaded load followed by a failed blocking load leaves
      the image drawable while flagged as having a loading problem:
      `loadImageBlocking` never clears `readyToDraw`. */
  lemma ReadyToDrawDespiteProblem()
    ensures var e := Run(Fresh(), [StartLoad("a.png"), WorkerRun(true, true, true), NextFrame,
                                   LoadNow("b.png", false)]).after.entity;
            e.readyToDraw && e.problemLoading && !e.imageLoaded
  {
  }

  /** `loadHttpImageThreaded` marks the texture pending before any pixels
      exist. */
  lemma PendingTextureWithoutPixels()
    ensures var e := Run(Fresh(), [StartFetch("http://host/a.png")]).after.entity;
            e.pendingTexture && !e.imageLoaded
  {
  }
}

=== FILE: resize.dfy ===
/** The decision half of `resizeIfNeeded`: whether a freshly decoded image
    is scaled down. The target dimensions come from a float scale truncated
    to int and the pixel work is done by an image library; neither is part
    of this model. */
module Resize {

  function Max(a: int, b: int): (m: int)
    ensures m >= a && m >= b
    ensures m == a || m == b
  {
    if a >= b then a else b
  }

  /** A resize happens only when resizing was requested and the longer side
      of the decoded image exceeds the configured bound. */
  function NeedsResize(resizeAfterLoad: bool, maxSideSize: int, w: int, h: int): (r: bool)
    ensures r <==> resizeAfterLoad && (w > maxSideSize || h > maxSideSize)
  {
    resizeAfterLoad && Max(w, h) > maxSideSize
  }

}

=== FILE: threaded_image.dfy ===
/** The lifecycle flags of one `ofxThreadedImage` and the transitions that
    move them: the five entry points, one run of the background worker, the
    per-frame `_update` hook and the fade step of `draw`.

    Every collaborator the entity calls (image decode, HTTP fetch, the
    worker's lock, the GPU texture) is reduced to the boolean outcome it
    reports, passed in as a parameter. The worker runs as one indivisible
    step between frames. */
module ThreadedImage {

  import opened ProcessCounters
  import Resize

  /** `whatToDo`: the kind of work the background worker performs. */
  datatype Task = Load | LoadHttp | Save

  /** The JPEG quality handed to the encoder by `saveThreaded`. */
  datatype Quality = Best | High | Medium | Low | Worst

  /** The payload of `imageReadyEvent`; the image reference is implicit. */
  datatype Event = ImageReady(loaded: bool)

  datatype Entity = Entity(
    busy: bool,
    listening: bool,             // `_update` is registered on the per-frame update event
    imageLoaded: bool,           // decoded pixels are in memory
    pendingTexture: bool,        // pixels still have to be uploaded to the GPU
    pendingNotification: bool,   // `imageReadyEvent` must fire on the next frame
    problemLoading: bool,
    readyToDraw: bool,
    whatToDo: Task,
    fileName: string,
    url: string,
    quality: Quality,
    timeOut: int,
    alpha: real,
    alphaRiseSpeed: real,
    resizeAfterLoad: bool,
    maxSideSize: int
  )

  /** An entry point's boolean result and the entity afterwards. */
  datatype Call = Call(ok: bool, after: Entity)

  /** One `_update`: the entity afterwards and the events it fired, in order. */
  datatype Frame = Frame(after: Entity, events: seq<Event>)

  datatype Worked = Worked(after: Entity, counters: Counters)

  datatype Built = Built(entity: Entity, counters: Counters)

  /** What `draw` puts on screen. */
  datatype DrawCall = Tinted(alpha: real) | Plain | Skipped

  datatype Drawn = Drawn(after: Entity, call: DrawCall)

  const DEFAULT_TIME_OUT: int := 10
  const DEFAULT_ALPHA_RISE_SPEED: real := 0.05

  /** No task in flight and no notification owed. */
  predicate Idle(e: Entity)
  {
    !e.busy && !e.pendingNotification
  }

  /** The configuration fields, which only the constructor and
      `constrainImageSize` write. */
  predicate SameConfig(a: Entity, b: Entity)
  {
    a.resizeAfterLoad == b.resizeAfterLoad && a.maxSideSize == b.maxSideSize
    && a.alphaRiseSpeed == b.alphaRiseSpeed && a.timeOut == b.timeOut
  }

  /** The pixel-pipeline flags. */
  predicate SamePipeline(a: Entity, b: Entity)
  {
    a.imageLoaded == b.imageLoaded && a.pendingTexture == b.pendingTexture
    && a.pendingNotification == b.pendingNotification
  }

  /** The constructor. `whatToDo`, `maxSideSize` and `quality` are left
      uninitialised by the C++ constructor, so their initial values are
      parameters;
      none of them is read before an entry point or `constrainImageSize`
      writes it. */
  function Construct(c: Counters, whatToDo: Task, maxSideSize: int, quality: Quality): (r: Built)
    ensures Idle(r.entity) && !r.entity.listening
    ensures !r.entity.imageLoaded && !r.entity.pendingTexture
    ensures !r.entity.readyToDraw && !r.entity.problemLoading
    ensures !r.entity.resizeAfterLoad
    ensures r.entity.alpha == 1.0 && r.entity.alphaRiseSpeed == DEFAULT_ALPHA_RISE_SPEED
    ensures r.entity.timeOut == DEFAULT_TIME_OUT
    ensures r.entity.fileName == "" && r.entity.url == ""
    ensures r.entity.whatToDo == whatToDo && r.entity.maxSideSize == maxSideSize
    ensures r.entity.quality == quality
    ensures r.counters.numLoading == c.numLoading
    ensures (r.counters.numAlive - c.numAlive - 1) % INT32_MODULUS == 0
  {
    var e := Entity(
      busy := false, listening := false, imageLoaded := false,
      pendingTexture := false, pendingNotification := false,
      problemLoading := false, readyToDraw := false,
      whatToDo := whatToDo, fileName := "", url := "", quality := quality,
      timeOut := DEFAULT_TIME_OUT, alpha := 1.0,
      alphaRiseSpeed := DEFAULT_ALPHA_RISE_SPEED,
      resizeAfterLoad := false, maxSideSize := maxSideSize);
    Built(e, c.(numAlive := Inc(c.numAlive)))
  }

  /** The destructor's bookkeeping; its join on a running worker is not
      modelled. */
  function Destroy(c: Counters): (r: Counters)
    ensures r.numLoading == c.numLoading
    ensures (c.numAlive - r.numAlive - 1) % INT32_MODULUS == 0
  {
    c.(numAlive := Dec(c.numAlive))
  }

  /** `constrainImageSize`: from now on a decoded image is scaled down
      exactly when one of its sides exceeds `largestSide`. */
  function ConstrainImageSize(e: Entity, largestSide: int): (r: Entity)
    ensures forall w: int, h: int ::
      Resize.NeedsResize(r.resizeAfterLoad, r.maxSideSize, w, h) <==> w > largestSide || h > largestSide
    ensures r.(resizeAfterLoad := e.resizeAfterLoad, maxSideSize := e.maxSideSize) == e
  {
    e.(maxSideSize := largestSide, resizeAfterLoad := true)
  }

  /** `loadImageThreaded`: refused while busy; otherwise claims the entity,
      registers the frame hook and leaves the decode to the worker. */
  function LoadImageThreaded(e: Entity, path: string): (r: Call)
    ensures r.ok <==> !e.busy
    ensures !r.ok ==> r.after == e
    ensures r.ok ==> r.after.busy && r.after.listening
    ensures r.ok ==> r.after.whatToDo == Load && r.after.fileName == path
    ensures r.ok ==> !r.after.readyToDraw && !r.after.problemLoading && r.after.alpha == 0.0
    ensures r.after.(busy := e.busy, listening := e.listening, alpha := e.alpha,
                     whatToDo := e.whatToDo, fileName := e.fileName,
                     readyToDraw := e.readyToDraw, problemLoading := e.problemLoading) == e
  {
    if !e.busy then
      Call(true, e.(busy := true, listening := true, alpha := 0.0, whatToDo := Load,
                    fileName := path, readyToDraw := false, problemLoading := false))
    else
      Call(false, e)
  }

  /** `loadImageBlocking`: decodes on the calling thread with no busy guard.
      Its parameter shadows the `fileName` member, which it never writes. */
  function LoadImageBlocking(e: Entity, path: string, decodeOk: bool): (r: Call)
    ensures r.ok == decodeOk
    ensures r.after.pendingTexture && r.after.listening && r.after.whatToDo == Load
    ensures r.after.imageLoaded == decodeOk && r.after.problemLoading == !decodeOk
    ensures r.after.pendingNotification == (e.pendingNotification || !decodeOk)
    ensures r.after.alpha == 0.0
    ensures r.after.busy == e.busy && r.after.readyToDraw == e.readyToDraw
    ensures r.after.(listening := e.listening, imageLoaded := e.imageLoaded,
                     pendingTexture := e.pendingTexture,
                     pendingNotification := e.pendingNotification,
                     problemLoading := e.problemLoading, whatToDo := e.whatToDo,
                     alpha := e.alpha) == e
  {
    var started := e.(listening := true, imageLoaded := false, whatToDo := Load,
                      problemLoading := false, alpha := 0.0);
    var decoded :=
      if !decodeOk then started.(problemLoading := true, pendingNotification := true)
      else started.(imageLoaded := true);
    Call(decodeOk, decoded.(pendingTexture := true))
  }

  /** `loadHttpImageBlocking`: refused while busy. A failed fetch returns
      false after the hook, the task kind and the URL have been recorded; a
      successful fetch goes on to decode the downloaded file. It never sets
      `busy` and never raises a notification. */
  function LoadHttpImageBlocking(e: Entity, url: string, fetchOk: bool, decodeOk: bool): (r: Call)
    ensures r.ok <==> !e.busy && fetchOk && decodeOk
    ensures e.busy ==> r.after == e
    ensures !e.busy ==> r.after.listening && r.after.whatToDo == LoadHttp && r.after.url == url
    ensures !e.busy ==> !r.after.readyToDraw && !r.after.problemLoading && r.after.alpha == 0.0
    ensures !e.busy && !fetchOk ==> SamePipeline(e, r.after)
    ensures !e.busy && fetchOk ==> r.after.pendingTexture && r.after.imageLoaded == decodeOk
    ensures r.after.busy == e.busy && r.after.pendingNotification == e.pendingNotification
    ensures r.after.(listening := e.listening, alpha := e.alpha, whatToDo := e.whatToDo,
                     url := e.url, readyToDraw := e.readyToDraw,
                     problemLoading := e.problemLoading, imageLoaded := e.imageLoaded,
                     pendingTexture := e.pendingTexture) == e
  {
    if !e.busy then
      var started := e.(listening := true, alpha := 0.0, whatToDo := LoadHttp, url := url,
                        readyToDraw := false, problemLoading := false);
      if !fetchOk then
        Call(false, started)
      else
        var decoded := if decodeOk then started.(imageLoaded := true)
                       else started.(imageLoaded := false);
        Call(decodeOk, decoded.(pendingTexture := true))
    else
      Call(false, e)
  }

  /** `loadHttpImageThreaded`: refused while busy; otherwise records the
      URL, marks the texture as pending and starts the worker. It does not
      set `busy`. */
  function LoadHttpImageThreaded(e: Entity, url: string): (r: Call)
    ensures r.ok <==> !e.busy
    ensures !r.ok ==> r.after == e
    ensures r.after.busy == e.busy
    ensures r.ok ==> r.after.listening && r.after.whatToDo == LoadHttp && r.after.url == url
    ensures r.ok ==> r.after.pendingTexture && !r.after.imageLoaded
    ensures r.ok ==> !r.after.problemLoading && !r.after.readyToDraw && r.after.alpha == 0.0
    ensures r.after.(listening := e.listening, alpha := e.alpha, whatToDo := e.whatToDo,
                     url := e.url, pendingTexture := e.pendingTexture,
                     imageLoaded := e.imageLoaded, problemLoading := e.problemLoading,
                     readyToDraw := e.readyToDraw) == e
  {
    if !e.busy then
      Call(true, e.(listening := true, alpha := 0.0, whatToDo := LoadHttp, url := url,
                    pendingTexture := true, imageLoaded := false,
                    problemLoading := false, readyToDraw := false))
    else
      Call(false, e)
  }

  /** `saveThreaded`: refused while busy; otherwise records the destination
      and quality and starts the worker. It neither sets `busy` nor
      registers the frame hook. */
  function SaveThreaded(e: Entity, path: string, quality: Quality): (r: Call)
    ensures r.ok <==> !e.busy
    ensures !r.ok ==> r.after == e
    ensures r.ok ==> r.after.whatToDo == Save && r.after.fileName == path && r.after.quality == quality
    ensures r.after.(whatToDo := e.whatToDo, fileName := e.fileName, quality := e.quality) == e
  {
    if !e.busy then
      Call(true, e.(whatToDo := Save, fileName := path, quality := quality))
    else
      Call(false, e)
  }

  /** The LOAD_HTTP branch of the worker: download to disk, then decode the
      downloaded file. A failure of either step is only logged. */
  function FetchAndDecode(e: Entity, fetchOk: bool, decodeOk: bool): (r: Entity)
    ensures r.imageLoaded == (e.imageLoaded || (fetchOk && decodeOk)) && r.alpha == 0.0
    ensures r.(imageLoaded := e.imageLoaded, alpha := e.alpha) == e
  {
    var fetching := e.(alpha := 0.0);
    if fetchOk && decodeOk then fetching.(imageLoaded := true) else fetching
  }

  /** The work `threadedFunction` does while it holds the lock. */
  function RunTask(e: Entity, fetchOk: bool, decodeOk: bool): (r: Entity)
  {
    match e.whatToDo
    case Save => e
    case Load => LoadImageBlocking(e.(alpha := 0.0), e.fileName, decodeOk).after
    case LoadHttp => FetchAndDecode(e, fetchOk, decodeOk)
  }

  /** One run of `threadedFunction`, performed atomically. `lockOk` is the
      outcome of `lock()`; `fetchOk` and `decodeOk` are the HTTP download's
      and the decoder's outcomes (each ignored where the task does not call
      that collaborator). The C++ code never looks at the encoder's outcome,
      so a save changes no modelled state. */
  function Worker(e: Entity, c: Counters, lockOk: bool, fetchOk: bool, decodeOk: bool): (r: Worked)
    ensures r.counters == c
    ensures !lockOk || e.whatToDo == Save ==> r.after == e
    ensures lockOk && e.whatToDo == Load ==> r.after == LoadImageBlocking(e, e.fileName, decodeOk).after
    ensures lockOk && e.whatToDo == LoadHttp ==>
      r.after.imageLoaded == (e.imageLoaded || (fetchOk && decodeOk)) && r.after.alpha == 0.0
    ensures lockOk && e.whatToDo == LoadHttp ==>
      r.after.(imageLoaded := e.imageLoaded, alpha := e.alpha) == e
    ensures r.after.busy == e.busy && SameConfig(e, r.after)
  {
    var loading := Inc(c.numLoading);
    var after := if lockOk then RunTask(e, fetchOk, decodeOk) else e;
    Worked(after, c.(numLoading := Dec(loading)))
  }

  /** `updateTextureIfNeeded`: a pending texture always asks for a
      notification, but is uploaded and cleared only when loading went well. */
  function UpdateTextureIfNeeded(e: Entity): (r: Entity)
    ensures !e.pendingTexture ==> r == e
    ensures e.pendingTexture ==> r.pendingNotification
    ensures r.readyToDraw <==> e.readyToDraw || (e.pendingTexture && !e.problemLoading)
    ensures r.pendingTexture <==> e.pendingTexture && e.problemLoading
    ensures r.(readyToDraw := e.readyToDraw, pendingTexture := e.pendingTexture,
               pendingNotification := e.pendingNotification) == e
  {
    if e.pendingTexture then
      var uploaded := if !e.problemLoading then e.(readyToDraw := true, pendingTexture := false) else e;
      uploaded.(pendingNotification := true)
    else
      e
  }

  /** `_update`: upload a pending texture when pixels are in memory, then
      deliver an owed notification exactly once, releasing the entity. */
  function Update(e: Entity): (r: Frame)
    ensures |r.events| <= 1
    ensures !r.after.pendingNotification
    ensures |r.events| == 1 <==> e.pendingNotification || (e.imageLoaded && e.pendingTexture)
    ensures |r.events| == 1 ==> r.events[0].loaded == !e.problemLoading
    ensures |r.events| == 1 ==> !r.after.busy && !r.after.listening
    ensures |r.events| == 1 && e.problemLoading ==> !r.after.imageLoaded
    ensures |r.events| == 1 && !e.problemLoading ==> r.after.imageLoaded == e.imageLoaded
    ensures r.events == [] ==> r.after == e
    ensures r.after.readyToDraw <==> e.readyToDraw || (e.imageLoaded && e.pendingTexture && !e.problemLoading)
    ensures r.after.pendingTexture <==> e.pendingTexture && !(e.imageLoaded && !e.problemLoading)
    ensures r.after.(busy := e.busy, listening := e.listening, imageLoaded := e.imageLoaded,
                     pendingTexture := e.pendingTexture, pendingNotification := e.pendingNotification,
                     readyToDraw := e.readyToDraw) == e
  {
    var uploaded := if e.imageLoaded then UpdateTextureIfNeeded(e) else e;
    if uploaded.pendingNotification then
      var ev := ImageReady(!uploaded.problemLoading);
      var released := if uploaded.problemLoading then uploaded.(imageLoaded := false) else uploaded;
      Frame(released.(pendingNotification := false, listening := false, busy := false), [ev])
    else
      Frame(uploaded, [])
  }

  /** `_update` with the owner's `imageReadyEvent` handler made explicit.
      `ofNotifyEvent` runs the handler synchronously, on the image as it is
      at that moment, and the clears that follow run on whatever the handler
      left. `Update` is the case of a handler that does not touch the image. */
  function UpdateWithHandler(e: Entity, handler: Entity -> Entity): (r: Frame)
    ensures |r.events| <= 1
    ensures |r.events| == 1 <==> e.pendingNotification || (e.imageLoaded && e.pendingTexture)
    ensures |r.events| == 1 ==> r.events[0].loaded == !e.problemLoading
    ensures |r.events| == 1 ==> !r.after.busy && !r.after.listening && !r.after.pendingNotification
    ensures r.events == [] ==> r.after == e
    ensures |r.events| == 1 ==>
              r.after == handler(Update(e).after.(busy := e.busy, listening := e.listening, pendingNotification := true))
                           .(pendingNotification := false, listening := false, busy := false)
  {
    var uploaded := if e.imageLoaded then UpdateTextureIfNeeded(e) else e;
    if uploaded.pendingNotification then
      var ev := ImageReady(!uploaded.problemLoading);
      var released := if uploaded.problemLoading then uploaded.(imageLoaded := false) else uploaded;
      var handled := handler(released);
      Frame(handled.(pendingNotification := false, listening := false, busy := false), [ev])
    else
      Frame(uploaded, [])
  }

  /** One frame of the application: `_update` runs only while registered. */
  function Tick(e: Entity): (r: Frame)
    ensures !e.listening ==> r == Frame(e, [])
    ensures e.listening ==> r == Update(e)
  {
    if e.listening then Update(e) else Frame(e, [])
  }

  /** The four conditions under which `draw` advances the fade. */
  predicate FadeAdvances(e: Entity, fadeInOnLoad: bool)
  {
    e.imageLoaded && fadeInOnLoad && e.alpha < 1.0 && (e.whatToDo == LoadHttp || e.whatToDo == Load)
  }

  /** The four-argument `draw`: while a fade-in is under way the image is
      drawn tinted (the fade advanced and clamped to 1 for a load task);
      otherwise it is drawn plainly if a texture exists. */
  function Draw(e: Entity, fadeInOnLoad: bool, texAllocated: bool): (r: Drawn)
    ensures !FadeAdvances(e, fadeInOnLoad) ==> r.after == e
    ensures r.after.(alpha := e.alpha) == e
    ensures FadeAdvances(e, fadeInOnLoad) ==>
      r.after.alpha <= 1.0 && r.after.alpha <= e.alpha + e.alphaRiseSpeed
      && (r.after.alpha == 1.0 || r.after.alpha == e.alpha + e.alphaRiseSpeed)
    ensures r.call.Tinted? <==> e.imageLoaded && fadeInOnLoad && e.alpha < 1.0
    ensures r.call.Tinted? ==> r.call.alpha == r.after.alpha
    ensures r.call.Plain? <==> !r.call.Tinted? && texAllocated
  {
    if e.imageLoaded && fadeInOnLoad && e.alpha < 1.0 then
      var faded :=
        if e.whatToDo == LoadHttp || e.whatToDo == Load then
          var raised := e.alpha + e.alphaRiseSpeed;
          e.(alpha := if raised > 1.0 then 1.0 else raised)
        else e;
      Drawn(faded, Tinted(faded.alpha))
    else if texAllocated then
      Drawn(e, Plain)
    else
      Drawn(e, Skipped)
  }
}
